=== FILE: README.md ===
# net-cat server core, modelled in Dafny

This project models the chat server in `handlers/server.go`, a TCP broadcast chat. A
client connects, sends a username as its first payload, and from then on sends encoded
messages. The server relays each message to every other registered client.

The model covers:
- the client registry: the `clients` map from connection to username, the process-wide
  `ExistingUsers` flags and the capacity `maxUsers = 10`;
- the per-connection reader `readLoop`, where the first payload registers and later
  payloads are queued;
- the router `printLoop`, which decodes, colourises, logs and broadcasts each queued payload;
- `MsgToClient`, `BroadcastMsg` and `closeConnection`;
- the pure text functions `Colorize` and `MsgLogsToText`.

Layout:
- `messages.dfy` (module `Messages`): the `Msg` record, the colour constants, `Colorize`,
  and the log rendering as a function (`RenderLog`) plus the loop method `MsgLogsToText`.
- `registry.dfy` (module `Registry`): the pure registry logic. It holds the registry
  invariant, AddClient's admission branch (`Admit`) and the broadcast recipients
  (`Targets`), with lemmas that admission and departure keep the invariant.
- `server_spec.dfy` (module `ServerSpec`): the shared server state as one value (`World`).
  Each operation has a function saying what it does to that state. The lemmas state what
  the operations promise.
- `read_buffer.dfy` (module `ReadBuffer`): readLoop's reused read buffer, and what it does
  to a payload that is queued as a view of it (see "## Findings").
- `handlers.dfy` (module `Handlers`): class `Server`, whose fields are the state the
  source updates in place. Each method is written step by step as in the source. Its
  `ensures` ties the new state (`Abs()`) to the matching `ServerSpec` function of the old
  state.

Modelling choices:
- Connections are opaque ids (`ConnId`).
- What `conn.Write` sends is recorded per connection (`sent`: connection → payloads in
  order). Go iterates a map in random order, so `BroadcastMsg` has no defined order across
  connections; recording each connection's own stream keeps what every client receives and
  in what order.
- `Server.msgch` is a `seq` of payloads, oldest first. The router takes them one at a time.
- The JSON encoder and decoder (`json.Marshal`, `EncodeMsg`, `json.Unmarshal`) are a
  `Codec` value of two functions. Nothing is assumed about them, except where a lemma
  requires the round trip for the one message it is about.
- When `json.Unmarshal` fails on malformed input, the router keeps Go's zero `Msg{}`
  (`EMPTY_MSG`); the error is only logged (`LogError` does not abort). When the input is
  well-formed but a field has the wrong type, `json.Unmarshal` still fills the fields it
  could decode. `Codec.decode` expresses that case by returning `Some` of the partly filled
  record, so the model assumes nothing about which of the two a payload falls into.
- Timestamps (`time.Now().Format(...)`) are parameters. On a read event they are carried
  by the event. One timestamp stands for all the clock reads of one `AddClient`. The
  source reads the clock in each `MsgToClient` call (`handlers/server.go:185`), so the join
  notice and the `logs` reply may carry different dates there; the model gives them the
  same one.
- `UserMsgDate` is a function parameter of the rendering.
- `Colorize` changes `msg.Text` through a pointer to a local record. It is modelled as a
  function returning the updated record.
- A snapshot (`os.WriteFile("msglogs.json", ...)`) is recorded as the value of the log
  when the snapshot is written.

Behaviour the model follows as written:
- The branch that replies "Max number of users reached." needs exactly 8 clients
  (`handlers/server.go:156`). The first guard already admits a fresh name at 8 clients, so
  the branch can never run. `Registry.Admit` proves it never returns `MaxReached`, and the
  branch in `Handlers.Server.AddClient` is `assert false`. As a result, a fresh name at
  capacity gets no reply at all: no capacity error ever reaches the rejected connection.
- `closeConnection` clears the departed name's flag (`handlers/server.go:107`), so the
  name can be registered again (`ServerSpec.DepartedNameReusable`): a departed user's name
  does not stay taken.
- `msgCount` counts every payload, even when registration was refused, whether because
  the name was taken or, silently, because 10 or more clients were registered. A refused
  connection therefore never retries registration, and its later payloads are queued
  (`ServerSpec.RejectedConnectionStillForwards`): a refused connection cannot send a
  second username.
- Notices built by `MsgToClient` are colourised there and again by the router, so a logged
  join notice carries the notice colour twice (`ServerSpec.JoinNoticeReachesOthers`).
- The router treats every decoded kind alike: a queued `error` or `logs` record is
  broadcast to everyone except its author, like a chat record. Only the errors built by
  `MsgToClient` go to their author alone, and those never pass through the router.
- The router leaves out of a broadcast the connections whose name equals the record's
  `Author` field, which comes from the decoded payload. It does not leave out the
  connection that sent the payload.
- `MsgLogsToText` renders the body of every entry, of any kind, including `logs` entries.

## Model

| member | source | states |
|---|---|---|
| Messages.Colorize | handlers/server.go:209-218 | `notif` becomes Orange+text+End, `error` becomes Red+text+End, `msg` becomes Blue+text+End+"\n"; any other kind is unchanged; only `Text` changes; the result's text is empty exactly when the input text is empty and the kind is undecorated |
| Messages.ColorizeTwiceWrapsTwice | handlers/server.go:187 | colourising a decorated record twice wraps it twice (strictly longer text each time; for a notice the colour prefix and reset appear twice) |
| Messages.EntryText | handlers/server.go:171-179 | a log entry renders as the Blue/author-date header only for `msg`, then its body always, then "\n" only for `error` or `notif` |
| Messages.RenderLog | handlers/server.go:169-181 | the reference rendering of a log: each entry's `EntryText`, in log order; `MsgLogsToText` is proved equal to it and `RenderLogAppend` proves it distributes over concatenation |
| Messages.RenderLogAppend | handlers/server.go:169-181 | rendering distributes over concatenation: render(xs + ys) = render(xs) + render(ys) |
| Messages.RenderLogSingle | handlers/server.go:169-181 | a one-entry log renders as that entry's text |
| Messages.MsgLogsToText | handlers/server.go:169-181 | the loop's accumulated text equals the rendering of the whole log, in log order (and "" for the empty log) |
| Registry.Admit | handlers/server.go:143-158 | admission happens exactly when the name is not flagged and fewer than 10 are registered; "name taken" exactly when the name is flagged; nothing exactly for a fresh name at 10 or more; the capacity-error outcome never occurs |
| Registry.AdmitPreservesInv | handlers/server.go:143-145 | admitting keeps names unique, every held name flagged and at most 10 registered; the count grows by one for a new connection |
| Registry.ClosePreservesInv | handlers/server.go:105-107 | removing a registered connection and clearing its name keeps the invariant, lowers the count by one, unflags the name, and the name can be admitted again |
| Registry.Targets | handlers/server.go:161-167 | the recipients are exactly the registered connections whose name differs from the excluded one |
| Registry.TargetsExcludeOnlyAuthor | handlers/server.go:161-167 | under the invariant, excluding a registered user's name leaves out that user's connection and no other |
| Registry.TargetsOfUnheldName | handlers/server.go:161-167 | excluding a name no registered connection holds leaves out nobody |
| ServerSpec.Broadcast | handlers/server.go:161-167 | each registered connection whose name differs from the excluded one receives the payload exactly once; every other connection receives nothing; nothing else changes |
| ServerSpec.MsgToClient | handlers/server.go:183-203 | an `error` reply is written to the requesting connection only; a `logs` reply snapshots the current log and is written to that connection only; every other kind is appended to the queue and written nowhere; the registry, log and closed set are untouched |
| ServerSpec.AddClient | handlers/server.go:142-159 | flagged name: only one error written to the requester, nothing queued or registered; fresh name at capacity: no change at all; fresh name below capacity: registered and flagged, one join notice queued, and if the log is non-empty one snapshot plus one `logs` reply to the requester only; the invariant is kept |
| ServerSpec.CloseConnection | handlers/server.go:105-109 | the connection's entry is gone and it alone is added to the closed set, every other entry is unchanged, only the given name is unflagged; closing a registered connection with its own name keeps the invariant |
| ServerSpec.Routed | handlers/server.go:113-117 | a payload that fails to decode becomes the zero record; otherwise the type, author and date are the decoded ones, and the text is non-empty (so the record will be broadcast) exactly when the decoded text is non-empty or the kind is one Colorize decorates |
| ServerSpec.RouteNext | handlers/server.go:112-126 | one router step removes the oldest queued payload and appends exactly one record to the log (the zero record when decoding fails); the record is written once to each registered connection whose name differs from its author, only when its text is non-empty; the registry is untouched |
| ServerSpec.Drain | handlers/server.go:111-127 | routing k payloads removes exactly those k from the front of the queue and appends their routed records to the log in queue order |
| ServerSpec.ChatReachesOthersOnly | handlers/server.go:120-124 | a chat record from a registered user grows the log by one, reaches every other registered connection once, and is not echoed to its author |
| ServerSpec.ReadStep | handlers/server.go:76-108 | every payload increments msgCount; the first goes to AddClient and every later one is queued; end of stream for a registered connection queues one departure notice, removes the entry, unflags exactly that name and closes the connection, changing nothing else; end of stream for an unregistered connection or another read error changes nothing; a read never removes a queued payload or logs; the invariant is kept |
| ServerSpec.ReadRun | handlers/server.go:71-103 | readLoop from msgCount 0 over a run of reads, stopping at the first read that breaks the loop: the queue only grows, the log is untouched, and msgCount never exceeds the number of reads |
| ServerSpec.ReadRunStopped | handlers/server.go:88-91 | once the loop has broken out (end of stream or read error), later reads change nothing |
| ServerSpec.ReadRunKeepsValid | handlers/server.go:71-103 | any sequence of reads on a connection keeps the registry invariant, so at most 10 connections are ever registered |
| ServerSpec.ReadRunQueuesNext | handlers/server.go:98-100 | once the username has been read and the loop is still running, one more payload is queued unchanged and msgCount grows by one, nothing else changing |
| ServerSpec.LaterPayloadsQueued | handlers/server.go:94-101 | after the username, a run of payloads is queued unchanged and in order, msgCount counts each of them, and nothing else changes |
| ServerSpec.OnlyFirstPayloadRegisters | handlers/server.go:94-101 | over a run of payloads, only the first reaches AddClient, whatever its outcome, and all later ones are queued unchanged and in order (as copies; see "## Findings") |
| ReadBuffer.ReadInto | handlers/server.go:73-76 | a read of n bytes overwrites the buffer's first n bytes and leaves the rest as earlier reads left them |
| ReadBuffer.QueuedViewOverwritten | handlers/server.go:94-99 | a payload queued as a view of the buffer and followed by a shorter read before routing is seen by the router as the new payload plus the old one's tail, which equals the queued payload only when the new one starts like it |
| ReadBuffer.QueuedViewExample | handlers/server.go:94-99 | "hello" then "hi" read before routing: the first queued view reads "hillo" |
| ServerSpec.RejectedConnectionStillForwards | handlers/server.go:95-101 | a connection whose username was refused, because the name was taken or because 10 or more clients were registered, stays unregistered, yet all its later payloads are queued |
| ServerSpec.DepartedNameReusable | handlers/server.go:105-108 | after a registered user leaves, another connection can register the same name |
| ServerSpec.JoinNoticeReachesOthers | handlers/server.go:142-148 | a routed join notice reaches every previously registered connection once and not the joiner; the log records it colourised twice |
| Handlers.Server.constructor | handlers/server.go:28-35 | a new server has no clients, no flags, an empty log and queue, and has written nothing |
| Handlers.Server.MsgToClient | handlers/server.go:183-203 | the new state is ServerSpec.MsgToClient of the old one |
| Handlers.Server.AddClient | handlers/server.go:142-159 | the new state is ServerSpec.AddClient of the old one; the capacity-error branch is proved dead |
| Handlers.Server.CloseConnection | handlers/server.go:105-109 | the new state is ServerSpec.CloseConnection of the old one |
| Handlers.Server.BroadcastMsg | handlers/server.go:161-167 | the loop over the registered connections writes the payload once to each recipient of Targets, whatever the visiting order, and changes nothing else |
| Handlers.Server.PrintLoopStep | handlers/server.go:112-126 | with a non-empty queue the new state is ServerSpec.RouteNext of the old one; with an empty queue nothing changes, as the receive blocks |
| Handlers.Server.PrintLoop | handlers/server.go:111-127 | running until the queue is empty routes every queued payload, in order |
| Handlers.Server.ReadStep | handlers/server.go:76-101 | the new state, msgCount and stop flag are ServerSpec.ReadStep of the old ones |
| Handlers.Server.ReadLoop | handlers/server.go:71-103 | the loop's effect is ServerSpec.ReadRun over the reads, plus the deferred close of the connection once the loop has broken out |

## Left out

- `Start`, `acceptLoop`, `net.Listen`/`Accept`, the `quitch` shutdown and the goroutines are
  left out: they are socket I/O and concurrency. The model assumes that each reader
  iteration and each router iteration (`ReadStep`, `PrintLoopStep`) runs atomically, one
  after another. The source does not guarantee this. `BroadcastMsg` ranges over `s.clients`
  (`handlers/server.go:162`) while reader goroutines add and delete entries (`:144`,
  `:106`), and Go's runtime aborts the process on such a concurrent map iteration and
  write. The `printLoop` goroutines, one per connection (`:66`), append to `MsgLog`
  (`:118`) without synchronisation. Neither race is modelled. The several `printLoop`
  consumers become one sequential router.
- `ShowLogin` is left out: it reads `welcome-text.txt` and writes it to the connection,
  which is pure I/O.
- The capacity of `msgch` (10) and the blocking of a full channel are left out; the queue
  is unbounded.
- The 4096-byte read buffer is left out of `ServerSpec` and `Handlers`: a payload is one
  read, of any length. `ReadBuffer` models the buffer only to show the defect under
  "## Findings".
- ServerSpec.ReadStep: each payload after the username is queued as a copy. The source
  queues `buf[:n]`, a view of the reader's one reused buffer, so a later read on the same
  connection overwrites a payload the router has not yet taken. The model follows the
  evidently intended copy; `ReadBuffer.QueuedViewOverwritten` shows the source's behaviour.
- ServerSpec.OnlyFirstPayloadRegisters: "queued unchanged and in order" holds for the
  copies the model queues. It does not hold for the source's views once a later read has
  overwritten them.
- Handlers.Server.ReadStep: queues a copy of the payload, as `ServerSpec.ReadStep` does,
  not a view of a shared buffer.
- The JSON format is not modelled (see `Codec` above). Neither are the console output
  (`fmt.Println` of errors, router notices and read errors) nor `LogError`.
- Failures of `conn.Write`, `conn.Close` and `os.WriteFile`, and the snapshot file's
  permissions, are left out. These results are ignored by the source.
- `ColorAnsiStart`'s formatting is not modelled: the three colours it produces are written
  out as constants.
- Handlers.Server.BroadcastMsg: the relative order of writes to different connections is
  not captured, only each connection's own stream.
- Handlers.Server.PrintLoop: stops when the queue is empty, where the source's loop blocks
  until more arrives or the channel is closed.
- Handlers.Server.ReadLoop: runs one connection's reads without interleaving other steps.
  Interleavings are expressed with `ReadStep` and `PrintLoopStep`.

## Findings

| source | as written | input that shows it | evidently intended | confidence | as-written member | corrected member |
|---|---|---|---|---|---|---|
| handlers/server.go:94-99 | every payload after the username is queued as `buf[:n]`, a view of the one 4096-byte buffer that the next `conn.Read` overwrites from the start | a registered client sends "hello" and then "hi" before the router takes the first: the router decodes "hillo" | each payload is queued as it was read, so the router decodes "hello" and then "hi" | medium, not executed | ReadBuffer.QueuedViewOverwritten | ServerSpec.OnlyFirstPayloadRegisters |

=== FILE: handlers.dfy ===
/** The Server of handlers/server.go as an object whose methods update its state in place,
    each proved to do what the matching function of ServerSpec says. */
module Handlers {
  import opened Messages
  import opened Registry
  import ServerSpec

  class Server {
    /** Server.clients: connection -> username. */
    var clients: map<ConnId, string>
    /** The ExistingUsers global: username -> taken. */
    var existingUsers: map<string, bool>
    /** The MsgLog global. */
    var msgLog: seq<Msg>
    /** The payloads waiting in Server.msgch, oldest first. */
    var msgch: seq<Payload>
    /** What each connection has been written (conn.Write), in order. */
    var sent: map<ConnId, seq<Payload>>
    /** Each write of msglogs.json, holding the log at that instant. */
    var snapshots: seq<seq<Msg>>
    /** Connections whose Close has been called. */
    var closed: set<ConnId>
    /** json.Marshal / EncodeMsg and json.Unmarshal. */
    const codec: Codec

    function Abs(): ServerSpec.World
      reads this
    {
      ServerSpec.World(clients, existingUsers, msgLog, msgch, sent, snapshots, closed)
    }

    /** NewServer, together with the package's initial globals. */
    constructor (codec: Codec)
      ensures Abs() == ServerSpec.INITIAL && this.codec == codec
    {
      clients, existingUsers, msgLog, msgch := map[], map[], [], [];
      sent, snapshots, closed := map[], [], {};
      this.codec := codec;
    }

    /** The `t` argument is unused, as in the source: the record is stamped with `now`. */
    method MsgToClient(typeMsg: string, txt: string, t: string, conn: ConnId, now: string)
      modifies this
      ensures Abs() == ServerSpec.MsgToClient(old(Abs()), codec, typeMsg, txt, conn, now)
    {
      var name := NameOf(clients, conn);
      var newMsg := Msg(typeMsg, name, txt, now);
      newMsg := Colorize(newMsg);
      var req := codec.encode(newMsg);
      if typeMsg == KIND_ERROR {
        sent := ServerSpec.Write(sent, conn, req);
      } else if typeMsg == KIND_LOGS {
        snapshots := snapshots + [msgLog];
        sent := ServerSpec.Write(sent, conn, req);
      } else {
        msgch := msgch + [req];
      }
    }

    method AddClient(conn: ConnId, name: string, now: string)
      modifies this
      ensures Abs() == ServerSpec.AddClient(old(Abs()), codec, conn, name, now)
    {
      if !Flagged(existingUsers, name) && |clients| < MAX_USERS {
        clients := clients[conn := name];
        existingUsers := existingUsers[name := true];
        MsgToClient(KIND_NOTIF, name + ServerSpec.JOINED_SUFFIX, now, conn, now);
        if |msgLog| > 0 {
          MsgToClient(KIND_LOGS, ServerSpec.LOGS_TEXT, now, conn, now);
        }
      } else if Flagged(existingUsers, name) {
        MsgToClient(KIND_ERROR, ServerSpec.NAME_TAKEN_TEXT, now, conn, now);
      } else if |clients| == MAX_REACHED_COUNT {
        // The source replies "Max number of users reached." here. This branch is
        // unreachable: it needs a fresh name and at least MAX_USERS clients, so the count
        // is never MAX_REACHED_COUNT.
        assert false;
      }
    }

    method CloseConnection(conn: ConnId, client: string)
      modifies this
      ensures Abs() == ServerSpec.CloseConnection(old(Abs()), conn, client)
    {
      clients := clients - {conn};
      existingUsers := existingUsers[client := false];
      closed := closed + {conn};
    }

    /** Visits every registered connection once, in an unspecified order, and writes `msg`
        to those whose name differs from `excluded`. */
    method BroadcastMsg(msg: Payload, excluded: string)
      modifies this
      ensures Abs() == ServerSpec.Broadcast(old(Abs()), msg, excluded)
    {
      ghost var targets := Targets(clients, excluded);
      var pending := clients.Keys;
      ServerSpec.WriteAllNone(sent, msg);
      while pending != {}
        invariant clients == old(clients) && pending <= clients.Keys
        invariant Abs() == old(Abs()).(sent := ServerSpec.WriteAll(old(sent), targets - pending, msg))
        decreases pending
      {
        var conn :| conn in pending;
        if clients[conn] != excluded {
          ServerSpec.WriteAllAddOne(old(sent), targets - pending, conn, msg);
          assert targets - (pending - {conn}) == (targets - pending) + {conn};
          sent := ServerSpec.Write(sent, conn, msg);
        } else {
          assert targets - (pending - {conn}) == targets - pending;
        }
        pending := pending - {conn};
      }
      assert targets - pending == targets;
    }

    /** One iteration of printLoop; `routed` is false when the queue is empty, where the
        source's receive blocks. */
    method PrintLoopStep() returns (routed: bool)
      modifies this
      ensures routed == (old(msgch) != [])
      ensures routed ==> Abs() == ServerSpec.RouteNext(old(Abs()), codec)
      ensures !routed ==> Abs() == old(Abs())
    {
      if msgch == [] {
        return false;
      }
      var msg := msgch[0];
      msgch := msgch[1..];
      var newMsg := DecodeOrEmpty(codec, msg);
      newMsg := Colorize(newMsg);
      msgLog := msgLog + [newMsg];
      if |newMsg.Text| > 0 {
        BroadcastMsg(codec.encode(newMsg), newMsg.Author);
      }
      routed := true;
    }

    /** printLoop, run until the queue is empty (where the source's receive would block). */
    method PrintLoop()
      modifies this
      ensures Abs() == ServerSpec.Drain(old(Abs()), codec, |old(msgch)|)
      ensures msgch == []
    {
      ghost var routedCount := 0;
      while msgch != []
        invariant routedCount <= |old(msgch)|
        invariant Abs() == ServerSpec.Drain(old(Abs()), codec, routedCount)
        decreases |msgch|
      {
        var _ := PrintLoopStep();
        routedCount := routedCount + 1;
      }
    }

    /** One iteration of readLoop's loop for `conn`, given its msgCount so far. */
    method ReadStep(conn: ConnId, msgCount: nat, ev: ServerSpec.ReadEvent) returns (next: nat, stop: bool)
      modifies this
      ensures ServerSpec.ReadStep(old(Abs()), codec, conn, msgCount, ev) == ServerSpec.Reading(Abs(), next, stop)
    {
      match ev
      case Data(payload, now) =>
        if msgCount == 0 {
          AddClient(conn, payload, now);
        } else {
          msgch := msgch + [payload];
        }
        next, stop := msgCount + 1, false;
      case Eof(now) =>
        var name := NameOf(clients, conn);
        var newMsg := ServerSpec.Departure(name, now);
        var req := codec.encode(newMsg);
        if |newMsg.Author| > 0 {
          msgch := msgch + [req];
          CloseConnection(conn, newMsg.Author);
        }
        next, stop := msgCount, true;
      case ReadFailure =>
        next, stop := msgCount, true;
    }

    /** readLoop over the successive reads `events` of `conn`; `stopped` is false when the
        reads ran out before one broke the loop (the connection is then still being read). */
    method ReadLoop(conn: ConnId, events: seq<ServerSpec.ReadEvent>) returns (stopped: bool)
      modifies this
      ensures var r := ServerSpec.ReadRun(old(Abs()), codec, conn, events);
        && stopped == r.stopped
        && Abs() == if r.stopped then r.world.(closed := r.world.closed + {conn}) else r.world
    {
      ghost var start := Abs();
      var msgCount := 0;
      stopped := false;
      var i := 0;
      while i < |events| && !stopped
        invariant 0 <= i <= |events|
        invariant ServerSpec.ReadRun(start, codec, conn, events[..i]) == ServerSpec.Reading(Abs(), msgCount, stopped)
        decreases |events| - i
      {
        assert events[..i + 1][..i] == events[..i];
        msgCount, stopped := ReadStep(conn, msgCount, events[i]);
        i := i + 1;
      }
      if stopped {
        ServerSpec.ReadRunStopped(start, codec, conn, events, i);
        // the deferred conn.Close()
        closed := closed + {conn};
      } else {
        assert events[..i] == events;
      }
    }
  }
}

=== FILE: messages.dfy ===
/** The chat message record, its colour decoration and the plain-text rendering of the
    message log (handlers/server.go: Colorize, MsgLogsToText and the colour constants). */
module Messages {

  /** Bytes read from or written to a connection. Go's []byte and string hold the same
      bytes and `string(b)` copies them unchanged, so both are strings here. */
  type Payload = string

  datatype Option<T> = None | Some(value: T)

  /** Msg{Type, Author, Text, Date}, the record carried on the wire and kept in the log. */
  datatype Msg = Msg(Type: string, Author: string, Text: string, Date: string)

  /** Go's zero value Msg{}: what the router keeps when a payload does not decode. */
  const EMPTY_MSG := Msg("", "", "", "")

  const KIND_NOTIF := "notif"
  const KIND_ERROR := "error"
  const KIND_CHAT := "msg"
  const KIND_LOGS := "logs"

  /** The structured wire format (JSON in the source). Encoding, decoding and their
      relation are defined outside this model, so they are left abstract. */
  datatype Codec = Codec(encode: Msg -> Payload, decode: Payload -> Option<Msg>)

  /** What the router holds after json.Unmarshal into a fresh Msg{}: the decoded record,
      or the zero record when decoding fails (the error is only logged). */
  function DecodeOrEmpty(codec: Codec, p: Payload): Msg {
    match codec.decode(p)
    case Some(m) => m
    case None => EMPTY_MSG
  }

  const ESC: char := 27 as char

  /** ColorAnsiStart(R, G, B) is "ESC[38;2;R;G;Bm"; the three colours the source builds. */
  const ORANGE: string := [ESC] + "[38;2;255;94;0m"
  const RED: string := [ESC] + "[38;2;255;0;0m"
  const BLUE: string := [ESC] + "[38;2;0;60;255m"
  const COLOR_ANSI_END: string := [ESC] + "[0m"

  /** The decoration the source applies through a pointer to a local Msg; only Text changes. */
  function Colorize(m: Msg): (r: Msg)
    ensures r.Type == m.Type && r.Author == m.Author && r.Date == m.Date
    ensures m.Type == KIND_NOTIF ==> r.Text == ORANGE + m.Text + COLOR_ANSI_END
    ensures m.Type == KIND_ERROR ==> r.Text == RED + m.Text + COLOR_ANSI_END
    ensures m.Type == KIND_CHAT ==> r.Text == BLUE + m.Text + COLOR_ANSI_END + "\n"
    ensures m.Type != KIND_NOTIF && m.Type != KIND_ERROR && m.Type != KIND_CHAT ==> r == m
    ensures |r.Text| == 0 <==> |m.Text| == 0 && !Decorated(m.Type)
  {
    if m.Type == KIND_NOTIF then m.(Text := ORANGE + m.Text + COLOR_ANSI_END)
    else if m.Type == KIND_ERROR then m.(Text := RED + m.Text + COLOR_ANSI_END)
    else if m.Type == KIND_CHAT then m.(Text := BLUE + m.Text + COLOR_ANSI_END + "\n")
    else m
  }

  /** The kinds Colorize changes. */
  predicate Decorated(kind: string) {
    kind == KIND_NOTIF || kind == KIND_ERROR || kind == KIND_CHAT
  }

  /** Colorize is not idempotent on a decorated kind: a second application wraps the text
      once more, so a record colourised twice differs from one colourised once. */
  lemma ColorizeTwiceWrapsTwice(m: Msg)
    requires Decorated(m.Type)
    ensures |Colorize(Colorize(m)).Text| > |Colorize(m).Text| > |m.Text|
    ensures m.Type == KIND_NOTIF ==>
      Colorize(Colorize(m)).Text == ORANGE + ORANGE + m.Text + COLOR_ANSI_END + COLOR_ANSI_END
  {
  }

  /** The text one log entry contributes to the rendering: the coloured author/date header
      only for a chat message, then the body, then a line break only for an error or a
      notice. The header itself (UserMsgDate) is defined outside this model and is a
      parameter. */
  function EntryText(m: Msg, userMsgDate: (string, string) -> string): (r: string)
    ensures m.Type == KIND_CHAT ==> r == BLUE + userMsgDate(m.Author, m.Date) + COLOR_ANSI_END + m.Text
    ensures (m.Type == KIND_ERROR || m.Type == KIND_NOTIF) ==> r == m.Text + "\n"
    ensures m.Type != KIND_CHAT && m.Type != KIND_ERROR && m.Type != KIND_NOTIF ==> r == m.Text
  {
    var header := if m.Type == KIND_CHAT then BLUE + userMsgDate(m.Author, m.Date) + COLOR_ANSI_END else "";
    var trailer := if m.Type == KIND_ERROR || m.Type == KIND_NOTIF then "\n" else "";
    header + m.Text + trailer
  }

  /** The rendering of a whole log: the entries' texts, in log order. */
  function RenderLog(logs: seq<Msg>, userMsgDate: (string, string) -> string): string
    decreases |logs|
  {
    if logs == [] then ""
    else RenderLog(logs[..|logs| - 1], userMsgDate) + EntryText(logs[|logs| - 1], userMsgDate)
  }

  /** Rendering distributes over concatenation of logs. */
  lemma {:induction false} RenderLogAppend(xs: seq<Msg>, ys: seq<Msg>, userMsgDate: (string, string) -> string)
    ensures RenderLog(xs + ys, userMsgDate) == RenderLog(xs, userMsgDate) + RenderLog(ys, userMsgDate)
    decreases |ys|
  {
    if ys == [] {
      assert xs + ys == xs;
    } else {
      var init, last := ys[..|ys| - 1], ys[|ys| - 1];
      assert (xs + ys)[..|xs + ys| - 1] == xs + init;
      assert (xs + ys)[|xs + ys| - 1] == last;
      RenderLogAppend(xs, init, userMsgDate);
    }
  }

  /** A log of one entry renders as that entry's text. */
  lemma RenderLogSingle(m: Msg, userMsgDate: (string, string) -> string)
    ensures RenderLog([m], userMsgDate) == EntryText(m, userMsgDate)
  {
  }

  /** MsgLogsToText: accumulates the rendering entry by entry. */
  method MsgLogsToText(logs: seq<Msg>, userMsgDate: (string, string) -> string) returns (txt: string)
    ensures txt == RenderLog(logs, userMsgDate)
  {
    txt := "";
    for i := 0 to |logs|
      invariant txt == RenderLog(logs[..i], userMsgDate)
    {
      assert logs[..i + 1][..i] == logs[..i];
      if logs[i].Type == KIND_CHAT {
        txt := txt + BLUE + userMsgDate(logs[i].Author, logs[i].Date) + COLOR_ANSI_END;
      }
      txt := txt + logs[i].Text;
      if logs[i].Type == KIND_ERROR || logs[i].Type == KIND_NOTIF {
        txt := txt + "\n";
      }
    }
    assert logs[..|logs|] == logs;
  }
}

=== FILE: read_buffer.dfy ===
/** readLoop's read buffer as the source uses it: one 4096-byte buffer per connection,
    which every conn.Read overwrites from the start, and from which each payload after the
    username is queued as the view buf[:n] rather than as a copy. ServerSpec queues copies;
    this module shows what the shared buffer does to a view that is still queued when the
    next read arrives. */
module ReadBuffer {
  import opened Messages

  /** make([]byte, 4096) in readLoop. */
  const BUF_SIZE: nat := 4096

  /** The buffer a fresh readLoop starts with: Go zero-fills it. */
  const FRESH: seq<char> := seq(BUF_SIZE, _ => 0 as char)

  /** The buffer after conn.Read(buf) has returned the |p| bytes of `p`: they overwrite the
      first |p| bytes, and the rest keep what earlier reads left there. */
  function ReadInto(buf: seq<char>, p: Payload): (r: seq<char>)
    requires |p| <= |buf|
    ensures |r| == |buf|
    ensures r[..|p|] == p
    ensures r[|p|..] == buf[|p|..]
  {
    p + buf[|p|..]
  }

  /** A payload `a` queued as the view buf[:|a|], followed by a read of `b` before the router
      has taken that view: the router then decodes `b` followed by the tail of `a`, and this
      is `a` only when `b` happens to start like `a`. */
  lemma {:induction false} QueuedViewOverwritten(buf: seq<char>, a: Payload, b: Payload)
    requires |b| <= |a| <= |buf|
    ensures ReadInto(ReadInto(buf, a), b)[..|a|] == b + a[|b|..]
    ensures ReadInto(ReadInto(buf, a), b)[..|a|] == a <==> b == a[..|b|]
  {
    var first := ReadInto(buf, a);
    var second := ReadInto(first, b);
    assert second == b + first[|b|..];
    assert first[|b|..|a|] == a[|b|..] by {
      assert first[..|a|] == a;
    }
    assert second[..|a|] == b + first[|b|..|a|];
    if b + a[|b|..] == a {
      assert (b + a[|b|..])[..|b|] == b;
    }
    if b == a[..|b|] {
      assert a[..|b|] + a[|b|..] == a;
    }
  }

  /** A registered client sends "hello" and then "hi" before the router runs: the queued
      view of the first payload reads "hillo". */
  lemma QueuedViewExample()
    ensures ReadInto(ReadInto(FRESH, "hello"), "hi")[..5] == "hillo"
    ensures ReadInto(ReadInto(FRESH, "hello"), "hi")[..5] != "hello"
  {
    QueuedViewOverwritten(FRESH, "hello", "hi");
    assert "hi" + "hello"[2..] == "hillo";
  }
}

=== FILE: registry.dfy ===
/** The client registry of handlers/server.go: the `clients` map from an open connection to
    its username, the process-wide `ExistingUsers` flags, the `maxUsers` capacity, the
    admission decision of AddClient and the choice of recipients in BroadcastMsg. */
module Registry {

  /** An accepted connection, known only by its identity. */
  type ConnId = nat

  /** maxUsers: the admission guard's capacity. */
  const MAX_USERS: nat := 10

  /** The second, smaller constant that guards the "Max number of users reached." reply. */
  const MAX_REACHED_COUNT: nat := 8

  /** Go's s.clients[conn]: the registered name, or "" for a connection with no entry. */
  function NameOf(clients: map<ConnId, string>, c: ConnId): string {
    if c in clients then clients[c] else ""
  }

  /** Go's ExistingUsers[name]: false for a name with no entry. */
  predicate Flagged(existingUsers: map<string, bool>, name: string) {
    name in existingUsers && existingUsers[name]
  }

  /** No username is held by two registered connections. */
  ghost predicate UniqueNames(clients: map<ConnId, string>) {
    forall c, d :: c in clients && d in clients && c != d ==> clients[c] != clients[d]
  }

  /** The registry invariant: names are unique, every held name is flagged as existing,
      and at most MAX_USERS connections are registered. */
  ghost predicate Inv(clients: map<ConnId, string>, existingUsers: map<string, bool>) {
    && UniqueNames(clients)
    && (forall c :: c in clients ==> Flagged(existingUsers, clients[c]))
    && |clients| <= MAX_USERS
  }

  /** The outcomes of AddClient's three-way branch, plus the silent fall-through. */
  datatype Admission = Admitted | NameTaken | MaxReached | Ignored

  /** AddClient's branch, as written: admit a name that is not flagged while fewer than
      MAX_USERS are registered; otherwise report a flagged name; otherwise report capacity
      only when exactly MAX_REACHED_COUNT are registered; otherwise do nothing. */
  function Admit(flagged: bool, count: nat): (a: Admission)
    ensures a == Admitted <==> !flagged && count < MAX_USERS
    ensures a == NameTaken <==> flagged
    ensures a == Ignored <==> !flagged && MAX_USERS <= count
    ensures a != MaxReached
  {
    if !flagged && count < MAX_USERS then Admitted
    else if flagged then NameTaken
    else if count == MAX_REACHED_COUNT then MaxReached
    else Ignored
  }

  /** Admitting a name keeps the invariant: the new name is held by no other connection,
      it is flagged, and the count stays within MAX_USERS (even if `conn` already had an
      entry, which is then overwritten). */
  lemma AdmitPreservesInv(clients: map<ConnId, string>, existingUsers: map<string, bool>, conn: ConnId, name: string)
    requires Inv(clients, existingUsers)
    requires Admit(Flagged(existingUsers, name), |clients|) == Admitted
    ensures Inv(clients[conn := name], existingUsers[name := true])
    ensures |clients[conn := name]| == |clients| + (if conn in clients then 0 else 1)
  {
  }

  /** closeConnection(conn, clients[conn]) keeps the invariant, and the departed name is no
      longer flagged: a later connection may register it again. */
  lemma ClosePreservesInv(clients: map<ConnId, string>, existingUsers: map<string, bool>, conn: ConnId)
    requires Inv(clients, existingUsers)
    requires conn in clients
    ensures Inv(clients - {conn}, existingUsers[clients[conn] := false])
    ensures |clients - {conn}| == |clients| - 1
    ensures !Flagged(existingUsers[clients[conn] := false], clients[conn])
    ensures Admit(Flagged(existingUsers[clients[conn] := false], clients[conn]), |clients - {conn}|) == Admitted
  {
  }

  /** BroadcastMsg's recipients: every registered connection whose name differs from
      `excluded`. */
  function Targets(clients: map<ConnId, string>, excluded: string): (t: set<ConnId>)
    ensures t <= clients.Keys
    ensures forall c :: c in clients ==> (c in t <==> clients[c] != excluded)
  {
    set c | c in clients && clients[c] != excluded
  }

  /** Under the invariant, broadcasting a registered user's message reaches every registered
      connection except that user's own one. */
  lemma TargetsExcludeOnlyAuthor(clients: map<ConnId, string>, existingUsers: map<string, bool>, author: ConnId)
    requires Inv(clients, existingUsers)
    requires author in clients
    ensures Targets(clients, clients[author]) == clients.Keys - {author}
    ensures |Targets(clients, clients[author])| == |clients| - 1
  {
  }

  /** A name that no registered connection holds (for instance "" for a system notice of an
      unregistered connection) excludes nobody. */
  lemma TargetsOfUnheldName(clients: map<ConnId, string>, excluded: string)
    requires forall c :: c in clients ==> clients[c] != excluded
    ensures Targets(clients, excluded) == clients.Keys
  {
  }
}

=== FILE: server_spec.dfy ===
/** The state the server of handlers/server.go shares between its goroutines, as one value,
    and one function per operation that says what that operation does to it. The class in
    module Handlers is proved to follow these functions; the lemmas here state what the
    operations promise. */
module ServerSpec {
  import opened Messages
  import opened Registry

  /** clients (Server.clients), existingUsers (the ExistingUsers global), msgLog (the MsgLog
      global), msgch (the queued payloads of Server.msgch, oldest first), sent (what each
      connection has been written, in order), snapshots (each write of msglogs.json, holding
      the log at that instant) and closed (connections whose Close has been called). */
  datatype World = World(
    clients: map<ConnId, string>,
    existingUsers: map<string, bool>,
    msgLog: seq<Msg>,
    msgch: seq<Payload>,
    sent: map<ConnId, seq<Payload>>,
    snapshots: seq<seq<Msg>>,
    closed: set<ConnId>)

  /** NewServer plus the package's initial globals. */
  const INITIAL := World(map[], map[], [], [], map[], [], {})

  ghost predicate Valid(w: World) {
    Inv(w.clients, w.existingUsers)
  }

  const JOINED_SUFFIX := " has joined our chat..."
  const LEFT_SUFFIX := " has left our chat..."
  const NAME_TAKEN_TEXT := "That username already exists."
  const MAX_REACHED_TEXT := "Max number of users reached."
  const LOGS_TEXT := "Read the log file"

  /** Everything written so far to connection `c`. */
  function SentTo(sent: map<ConnId, seq<Payload>>, c: ConnId): seq<Payload> {
    if c in sent then sent[c] else []
  }

  /** One conn.Write(p) on connection `c`. */
  function Write(sent: map<ConnId, seq<Payload>>, c: ConnId, p: Payload): (r: map<ConnId, seq<Payload>>)
    ensures forall d :: SentTo(r, d) == SentTo(sent, d) + (if d == c then [p] else [])
  {
    sent[c := SentTo(sent, c) + [p]]
  }

  /** One conn.Write(p) on each connection of `targets`, in whatever order. */
  function WriteAll(sent: map<ConnId, seq<Payload>>, targets: set<ConnId>, p: Payload): (r: map<ConnId, seq<Payload>>)
    ensures forall d :: SentTo(r, d) == SentTo(sent, d) + (if d in targets then [p] else [])
  {
    map d | d in sent.Keys + targets :: SentTo(sent, d) + (if d in targets then [p] else [])
  }

  /** Writing to no connection changes nothing. */
  lemma WriteAllNone(sent: map<ConnId, seq<Payload>>, p: Payload)
    ensures WriteAll(sent, {}, p) == sent
  {
    var r := WriteAll(sent, {}, p);
    assert r.Keys == sent.Keys;
    forall d | d in r
      ensures r[d] == sent[d]
    {
      assert SentTo(r, d) == SentTo(sent, d);
    }
  }

  /** Writing to one more connection is one more Write. */
  lemma WriteAllAddOne(sent: map<ConnId, seq<Payload>>, targets: set<ConnId>, c: ConnId, p: Payload)
    requires c !in targets
    ensures WriteAll(sent, targets + {c}, p) == Write(WriteAll(sent, targets, p), c, p)
  {
    var lhs, rhs := WriteAll(sent, targets + {c}, p), Write(WriteAll(sent, targets, p), c, p);
    assert lhs.Keys == rhs.Keys;
    forall d | d in lhs
      ensures lhs[d] == rhs[d]
    {
      assert SentTo(lhs, d) == SentTo(rhs, d);
    }
  }

  /** BroadcastMsg(p, excluded): each registered connection whose name differs from
      `excluded` receives `p` exactly once; every other connection receives nothing; nothing
      else changes. */
  function Broadcast(w: World, p: Payload, excluded: string): (r: World)
    ensures r.(sent := w.sent) == w
    ensures forall d :: (SentTo(r.sent, d) ==
      SentTo(w.sent, d) + (if d in w.clients && w.clients[d] != excluded then [p] else []))
  {
    w.(sent := WriteAll(w.sent, Targets(w.clients, excluded), p))
  }

  /** The record MsgToClient builds: the connection's registered name as author. */
  function Notice(w: World, kind: string, txt: string, conn: ConnId, now: string): Msg {
    Colorize(Msg(kind, NameOf(w.clients, conn), txt, now))
  }

  /** MsgToClient(kind, txt, _, conn): an error is written to `conn` only; a logs reply first
      snapshots the log, then is written to `conn` only; any other kind is queued for the
      router. */
  function MsgToClient(w: World, codec: Codec, kind: string, txt: string, conn: ConnId, now: string): (r: World)
    ensures r.clients == w.clients && r.existingUsers == w.existingUsers
    ensures r.msgLog == w.msgLog && r.closed == w.closed
    ensures kind == KIND_ERROR || kind == KIND_LOGS ==>
      && r.msgch == w.msgch
      && forall d :: SentTo(r.sent, d) == SentTo(w.sent, d) + (if d == conn then [codec.encode(Notice(w, kind, txt, conn, now))] else [])
    ensures kind != KIND_ERROR && kind != KIND_LOGS ==>
      r.sent == w.sent && r.msgch == w.msgch + [codec.encode(Notice(w, kind, txt, conn, now))]
    ensures r.snapshots == if kind == KIND_LOGS then w.snapshots + [w.msgLog] else w.snapshots
  {
    var req := codec.encode(Notice(w, kind, txt, conn, now));
    if kind == KIND_ERROR then w.(sent := Write(w.sent, conn, req))
    else if kind == KIND_LOGS then w.(snapshots := w.snapshots + [w.msgLog], sent := Write(w.sent, conn, req))
    else w.(msgch := w.msgch + [req])
  }

  /** AddClient(conn, name). */
  function AddClient(w: World, codec: Codec, conn: ConnId, name: string, now: string): (r: World)
    // A flagged name: the registry and the queue are untouched; `conn` alone gets one error.
    ensures Flagged(w.existingUsers, name) ==>
      && r.(sent := w.sent) == w
      && forall d :: SentTo(r.sent, d) == SentTo(w.sent, d) +
           (if d == conn then [codec.encode(Colorize(Msg(KIND_ERROR, NameOf(w.clients, conn), NAME_TAKEN_TEXT, now)))] else [])
    // A fresh name at capacity: nothing at all happens, not even a reply.
    ensures !Flagged(w.existingUsers, name) && MAX_USERS <= |w.clients| ==> r == w
    // A fresh name below capacity: registered and flagged, a join notice queued, and the
    // log snapshotted and announced to `conn` alone when it is not empty.
    ensures !Flagged(w.existingUsers, name) && |w.clients| < MAX_USERS ==>
      && r.clients == w.clients[conn := name]
      && r.existingUsers == w.existingUsers[name := true]
      && r.msgLog == w.msgLog && r.closed == w.closed
      && r.msgch == w.msgch + [codec.encode(Colorize(Msg(KIND_NOTIF, name, name + JOINED_SUFFIX, now)))]
      && r.snapshots == (if w.msgLog == [] then w.snapshots else w.snapshots + [w.msgLog])
      && forall d :: SentTo(r.sent, d) == SentTo(w.sent, d) +
           (if d == conn && w.msgLog != [] then [codec.encode(Msg(KIND_LOGS, name, LOGS_TEXT, now))] else [])
    ensures Valid(w) ==> Valid(r)
  {
    match Admit(Flagged(w.existingUsers, name), |w.clients|)
    case Admitted =>
      var registered := w.(clients := w.clients[conn := name], existingUsers := w.existingUsers[name := true]);
      assert Valid(w) ==> Valid(registered) by {
        if Valid(w) {
          AdmitPreservesInv(w.clients, w.existingUsers, conn, name);
        }
      }
      var joined := MsgToClient(registered, codec, KIND_NOTIF, name + JOINED_SUFFIX, conn, now);
      if |joined.msgLog| > 0 then MsgToClient(joined, codec, KIND_LOGS, LOGS_TEXT, conn, now) else joined
    case NameTaken => MsgToClient(w, codec, KIND_ERROR, NAME_TAKEN_TEXT, conn, now)
    case MaxReached => MsgToClient(w, codec, KIND_ERROR, MAX_REACHED_TEXT, conn, now)
    case Ignored => w
  }

  /** closeConnection(conn, client): drop `conn`'s entry, clear `client`'s flag, close `conn`. */
  function CloseConnection(w: World, conn: ConnId, client: string): (r: World)
    ensures conn !in r.clients && r.closed == w.closed + {conn}
    ensures forall c :: c != conn ==> (c in r.clients <==> c in w.clients)
    ensures forall c :: c in r.clients ==> r.clients[c] == w.clients[c]
    ensures !Flagged(r.existingUsers, client)
    ensures forall n :: n != client ==> (Flagged(r.existingUsers, n) <==> Flagged(w.existingUsers, n))
    ensures r.msgLog == w.msgLog && r.msgch == w.msgch && r.sent == w.sent && r.snapshots == w.snapshots
    ensures Valid(w) && conn in w.clients && client == w.clients[conn] ==> Valid(r)
  {
    var r := w.(clients := w.clients - {conn}, existingUsers := w.existingUsers[client := false], closed := w.closed + {conn});
    assert Valid(w) && conn in w.clients && client == w.clients[conn] ==> Valid(r) by {
      if Valid(w) && conn in w.clients && client == w.clients[conn] {
        ClosePreservesInv(w.clients, w.existingUsers, conn);
      }
    }
    r
  }

  /** The record the router logs for a queued payload: decoded (or Msg{} on failure), then
      colourised. Its text, and so whether it is broadcast, is non-empty exactly when the
      decoded text is non-empty or the kind is one Colorize decorates. */
  function Routed(codec: Codec, p: Payload): (m: Msg)
    ensures codec.decode(p).None? ==> m == EMPTY_MSG
    ensures var d := DecodeOrEmpty(codec, p);
      && m.Type == d.Type && m.Author == d.Author && m.Date == d.Date
      && (|m.Text| > 0 <==> |d.Text| > 0 || Decorated(d.Type))
  {
    Colorize(DecodeOrEmpty(codec, p))
  }

  /** One iteration of printLoop on the oldest queued payload. */
  function RouteNext(w: World, codec: Codec): (r: World)
    requires w.msgch != []
    ensures r.msgch == w.msgch[1..]
    ensures r.msgLog == w.msgLog + [Routed(codec, w.msgch[0])]
    ensures r.clients == w.clients && r.existingUsers == w.existingUsers
    ensures r.snapshots == w.snapshots && r.closed == w.closed
    ensures var m := Routed(codec, w.msgch[0]);
      forall d :: SentTo(r.sent, d) == SentTo(w.sent, d) +
        (if |m.Text| > 0 && d in w.clients && w.clients[d] != m.Author then [codec.encode(m)] else [])
    ensures codec.decode(w.msgch[0]).None? ==> r.sent == w.sent && r.msgLog == w.msgLog + [EMPTY_MSG]
  {
    var m := Routed(codec, w.msgch[0]);
    var logged := w.(msgch := w.msgch[1..], msgLog := w.msgLog + [m]);
    if |m.Text| > 0 then Broadcast(logged, codec.encode(m), m.Author) else logged
  }

  /** The routed records of a run of queued payloads, in queue order. */
  function RoutedAll(codec: Codec, ps: seq<Payload>): (ms: seq<Msg>)
    ensures |ms| == |ps|
  {
    seq(|ps|, i requires 0 <= i < |ps| => Routed(codec, ps[i]))
  }

  /** `k` iterations of printLoop: the oldest `k` payloads leave the queue and their routed
      records are appended to the log, once each and in queue order. */
  function Drain(w: World, codec: Codec, k: nat): (r: World)
    requires k <= |w.msgch|
    ensures r.msgch == w.msgch[k..]
    ensures r.msgLog == w.msgLog + RoutedAll(codec, w.msgch[..k])
    ensures r.clients == w.clients && r.existingUsers == w.existingUsers
    ensures r.snapshots == w.snapshots && r.closed == w.closed
    decreases k
  {
    if k == 0 then w
    else
      var before := Drain(w, codec, k - 1);
      assert before.msgch[0] == w.msgch[k - 1];
      assert RoutedAll(codec, w.msgch[..k]) == RoutedAll(codec, w.msgch[..k - 1]) + [Routed(codec, w.msgch[k - 1])];
      RouteNext(before, codec)
  }

  /** A chat record from a registered user reaches every other registered connection once,
      and not its author's own connection; the log grows by exactly that record. */
  lemma ChatReachesOthersOnly(w: World, codec: Codec, author: ConnId)
    requires Valid(w) && w.msgch != []
    requires author in w.clients
    requires Routed(codec, w.msgch[0]).Author == w.clients[author]
    requires Routed(codec, w.msgch[0]).Type == KIND_CHAT
    ensures var r, m := RouteNext(w, codec), Routed(codec, w.msgch[0]);
      && |r.msgLog| == |w.msgLog| + 1
      && SentTo(r.sent, author) == SentTo(w.sent, author)
      && forall d :: d in w.clients && d != author ==> SentTo(r.sent, d) == SentTo(w.sent, d) + [codec.encode(m)]
  {
  }

  /** What one read of readLoop observed: `n` bytes (with the time it was handled), a clean
      end of stream (with its time), or another read error. */
  datatype ReadEvent = Data(payload: Payload, at: string) | Eof(at: string) | ReadFailure

  /** The server state, readLoop's msgCount and whether the loop has broken out. */
  datatype Reading = Reading(world: World, msgCount: nat, stopped: bool)

  /** The departure notice readLoop builds on end of stream (not colourised here). */
  function Departure(name: string, now: string): Msg {
    Msg(KIND_NOTIF, name, name + LEFT_SUFFIX, now)
  }

  /** One iteration of readLoop's loop for connection `conn`. */
  function ReadStep(w: World, codec: Codec, conn: ConnId, msgCount: nat, ev: ReadEvent): (r: Reading)
    // Every payload counts, whatever became of the registration.
    ensures ev.Data? ==> r.msgCount == msgCount + 1 && !r.stopped
    ensures ev.Data? && msgCount == 0 ==> r.world == AddClient(w, codec, conn, ev.payload, ev.at)
    ensures ev.Data? && msgCount > 0 ==> r.world == w.(msgch := w.msgch + [ev.payload])
    ensures !ev.Data? ==> r.stopped && r.msgCount == msgCount
    ensures ev.ReadFailure? ==> r.world == w
    ensures ev.Eof? && NameOf(w.clients, conn) == "" ==> r.world == w
    ensures ev.Eof? && NameOf(w.clients, conn) != "" ==>
      && r.world.msgch == w.msgch + [codec.encode(Departure(w.clients[conn], ev.at))]
      && r.world.clients == w.clients - {conn}
      && r.world.existingUsers == w.existingUsers[w.clients[conn] := false]
      && r.world.closed == w.closed + {conn}
      && r.world.sent == w.sent && r.world.msgLog == w.msgLog && r.world.snapshots == w.snapshots
    // A read never takes a payload off the queue and never logs.
    ensures w.msgch <= r.world.msgch && r.world.msgLog == w.msgLog
    ensures Valid(w) ==> Valid(r.world)
  {
    match ev
    case Data(p, now) =>
      if msgCount == 0 then Reading(AddClient(w, codec, conn, p, now), msgCount + 1, false)
      else Reading(w.(msgch := w.msgch + [p]), msgCount + 1, false)
    case Eof(now) =>
      var name := NameOf(w.clients, conn);
      if |name| > 0 then
        var queued := w.(msgch := w.msgch + [codec.encode(Departure(name, now))]);
        var r := CloseConnection(queued, conn, name);
        assert r.clients == w.clients - {conn};
        Reading(r, msgCount, true)
      else Reading(w, msgCount, true)
    case ReadFailure => Reading(w, msgCount, true)
  }

  /** readLoop run over the reads `evs` of connection `conn`, from msgCount 0; reads after
      the one that breaks the loop are never made. */
  function ReadRun(w: World, codec: Codec, conn: ConnId, evs: seq<ReadEvent>): (r: Reading)
    ensures w.msgch <= r.world.msgch && r.world.msgLog == w.msgLog
    ensures r.msgCount <= |evs|
    decreases |evs|
  {
    if evs == [] then Reading(w, 0, false)
    else
      var prev := ReadRun(w, codec, conn, evs[..|evs| - 1]);
      if prev.stopped then prev else ReadStep(prev.world, codec, conn, prev.msgCount, evs[|evs| - 1])
  }

  /** Once readLoop has broken out, later reads change nothing. */
  lemma {:induction false} ReadRunStopped(w: World, codec: Codec, conn: ConnId, evs: seq<ReadEvent>, i: nat)
    requires i <= |evs|
    requires ReadRun(w, codec, conn, evs[..i]).stopped
    ensures ReadRun(w, codec, conn, evs) == ReadRun(w, codec, conn, evs[..i])
    decreases |evs| - i
  {
    if i < |evs| {
      var evs' := evs[..|evs| - 1];
      assert evs'[..i] == evs[..i];
      ReadRunStopped(w, codec, conn, evs', i);
    } else {
      assert evs[..i] == evs;
    }
  }

  /** Every reachable reader run keeps the registry invariant. */
  lemma {:induction false} ReadRunKeepsValid(w: World, codec: Codec, conn: ConnId, evs: seq<ReadEvent>)
    requires Valid(w)
    ensures Valid(ReadRun(w, codec, conn, evs).world)
    decreases |evs|
  {
    if evs != [] {
      ReadRunKeepsValid(w, codec, conn, evs[..|evs| - 1]);
    }
  }

  /** The payloads of a run of reads (non-data reads contribute nothing). */
  function Payloads(evs: seq<ReadEvent>): (ps: seq<Payload>)
    ensures |ps| <= |evs|
    decreases |evs|
  {
    if evs == [] then []
    else (if evs[0].Data? then [evs[0].payload] else []) + Payloads(evs[1..])
  }

  ghost predicate AllData(evs: seq<ReadEvent>) {
    forall i :: 0 <= i < |evs| ==> evs[i].Data?
  }

  /** Moving the first of `rest` onto the end of `first` leaves the concatenation alone. */
  lemma SplitFirst<T>(first: seq<T>, rest: seq<T>)
    requires rest != []
    ensures (first + [rest[0]]) + rest[1..] == first + rest
  {
    assert rest == [rest[0]] + rest[1..];
  }

  /** The queue after a first payload and then the others equals the queue after all. */
  lemma QueueSplitFirst(q: seq<Payload>, rest: seq<ReadEvent>)
    requires rest != [] && rest[0].Data?
    ensures (q + [rest[0].payload]) + Payloads(rest[1..]) == q + Payloads(rest)
  {
  }

  /** One more payload, read once the username has been read and before the loop breaks,
      is queued unchanged. */
  lemma ReadRunQueuesNext(w: World, codec: Codec, conn: ConnId, evs: seq<ReadEvent>, ev: ReadEvent, u: World, k: nat)
    requires ReadRun(w, codec, conn, evs) == Reading(u, k, false) && k > 0 && ev.Data?
    ensures ReadRun(w, codec, conn, evs + [ev]) == Reading(u.(msgch := u.msgch + [ev.payload]), k + 1, false)
  {
    assert (evs + [ev])[..|evs|] == evs;
  }

  /** After a first payload, every further payload of a run of reads is queued unchanged
      and in order, and nothing else changes. */
  lemma {:induction false} LaterPayloadsQueued(w: World, codec: Codec, conn: ConnId, first: seq<ReadEvent>, rest: seq<ReadEvent>, v: World, n: nat)
    requires ReadRun(w, codec, conn, first) == Reading(v, n, false) && n > 0
    requires AllData(rest)
    ensures ReadRun(w, codec, conn, first + rest) == Reading(v.(msgch := v.msgch + Payloads(rest)), n + |rest|, false)
    decreases |rest|
  {
    if rest == [] {
      assert first + rest == first;
      assert v.(msgch := v.msgch + []) == v;
    } else {
      var e, tail := rest[0], rest[1..];
      assert e.Data?;
      assert AllData(tail) by {
        forall i | 0 <= i < |tail| ensures tail[i].Data? {
          assert tail[i] == rest[i + 1];
        }
      }
      var next := v.(msgch := v.msgch + [e.payload]);
      ReadRunQueuesNext(w, codec, conn, first, e, v, n);
      LaterPayloadsQueued(w, codec, conn, first + [e], tail, next, n + 1);
      SplitFirst(first, rest);
      QueueSplitFirst(v.msgch, rest);
    }
  }

  /** Only the first payload goes to AddClient, whatever its outcome; every later payload is
      queued unchanged and in order, and nothing else changes. */
  lemma OnlyFirstPayloadRegisters(w: World, codec: Codec, conn: ConnId, name: string, now: string, rest: seq<ReadEvent>)
    requires AllData(rest)
    ensures var registered := AddClient(w, codec, conn, name, now);
      ReadRun(w, codec, conn, [Data(name, now)] + rest) ==
      Reading(registered.(msgch := registered.msgch + Payloads(rest)), 1 + |rest|, false)
  {
    var first := [Data(name, now)];
    assert first[..0] == [];
    LaterPayloadsQueued(w, codec, conn, first, rest, AddClient(w, codec, conn, name, now), 1);
  }

  /** A connection whose username is refused, because the name is taken or because the
      server is full, stays unregistered, yet every later payload it sends still reaches
      the router's queue. */
  lemma RejectedConnectionStillForwards(w: World, codec: Codec, conn: ConnId, name: string, now: string, rest: seq<ReadEvent>)
    requires AllData(rest)
    requires Admit(Flagged(w.existingUsers, name), |w.clients|) != Admitted
    ensures var r := ReadRun(w, codec, conn, [Data(name, now)] + rest);
      && r.world.clients == w.clients
      && r.world.msgch == w.msgch + Payloads(rest)
      && r.msgCount == 1 + |rest|
  {
    OnlyFirstPayloadRegisters(w, codec, conn, name, now, rest);
  }

  /** A name freed by a departure can be registered again by another connection while there
      is room. */
  lemma DepartedNameReusable(w: World, codec: Codec, conn: ConnId, other: ConnId, msgCount: nat, left: string, joined: string)
    requires Valid(w) && conn in w.clients && w.clients[conn] != ""
    ensures var after := ReadStep(w, codec, conn, msgCount, Eof(left)).world;
      AddClient(after, codec, other, w.clients[conn], joined).clients == after.clients[other := w.clients[conn]]
  {
  }

  /** The part of AddClient's effect that JoinNoticeReachesOthers relies on. */
  lemma JoinRegisters(w: World, codec: Codec, conn: ConnId, name: string, now: string)
    requires !Flagged(w.existingUsers, name) && |w.clients| < MAX_USERS
    ensures var joined := AddClient(w, codec, conn, name, now);
      && joined.clients == w.clients[conn := name]
      && joined.msgch == w.msgch + [codec.encode(Colorize(Msg(KIND_NOTIF, name, name + JOINED_SUFFIX, now)))]
      && forall d :: d != conn ==> SentTo(joined.sent, d) == SentTo(w.sent, d)
  {
  }

  /** A routed record with a non-empty text reaches each registered connection not named
      after its author once, and the author's connections not at all. */
  lemma RouteReachesAllButAuthor(w: World, codec: Codec)
    requires w.msgch != []
    requires |Routed(codec, w.msgch[0]).Text| > 0
    ensures var r, m := RouteNext(w, codec), Routed(codec, w.msgch[0]);
      && r.msgLog == w.msgLog + [m]
      && forall d :: d in w.clients ==>
           SentTo(r.sent, d) == SentTo(w.sent, d) + (if w.clients[d] != m.Author then [codec.encode(m)] else [])
  {
  }

  /** A newly joined user's notice, once routed, reaches every previously registered
      connection but not the joining one; since it is colourised when built and again by the
      router, its logged text carries the notice colour twice. */
  lemma JoinNoticeReachesOthers(w: World, codec: Codec, conn: ConnId, name: string, now: string)
    requires Valid(w) && w.msgch == []
    requires !Flagged(w.existingUsers, name) && |w.clients| < MAX_USERS && conn !in w.clients
    requires var n := Colorize(Msg(KIND_NOTIF, name, name + JOINED_SUFFIX, now));
      codec.decode(codec.encode(n)) == Some(n)
    ensures var joined := AddClient(w, codec, conn, name, now);
      var built := Colorize(Msg(KIND_NOTIF, name, name + JOINED_SUFFIX, now));
      && joined.msgch == [codec.encode(built)]
      && var r, logged := RouteNext(joined, codec), Colorize(built);
      && r.msgLog == w.msgLog + [logged]
      && logged.Text == ORANGE + ORANGE + (name + JOINED_SUFFIX) + COLOR_ANSI_END + COLOR_ANSI_END
      && SentTo(r.sent, conn) == SentTo(joined.sent, conn)
      && forall d :: d in w.clients ==> SentTo(r.sent, d) == SentTo(w.sent, d) + [codec.encode(logged)]
  {
    var n := Msg(KIND_NOTIF, name, name + JOINED_SUFFIX, now);
    var logged := Colorize(Colorize(n));
    ColorizeTwiceWrapsTwice(n);
    var joined := AddClient(w, codec, conn, name, now);
    JoinRegisters(w, codec, conn, name, now);
    assert Routed(codec, joined.msgch[0]) == logged;
    RouteReachesAllButAuthor(joined, codec);
    var r := RouteNext(joined, codec);
    assert conn in joined.clients && joined.clients[conn] == logged.Author;
    forall d | d in w.clients
      ensures SentTo(r.sent, d) == SentTo(w.sent, d) + [codec.encode(logged)]
    {
      assert Flagged(w.existingUsers, w.clients[d]);
      assert d != conn && joined.clients[d] == w.clients[d];
    }
  }
}
